=== FILE: README.md ===
# doc_scan: a Dafny model of the iOS plugin's request logic

`doc_scan` is a Flutter plugin that scans documents. On iOS it answers three
method-channel calls:

- `getImage` shows the document camera or the photo picker.
- `detectEdges` runs a Vision rectangle request on an image file. It answers
  with the document's quadrilateral as eight named coordinates.
- `applyCropAndSave` takes a quadrilateral, possibly edited by the user, and
  an image. It rectifies the image to the quadrilateral with Core Image,
  applies a named tone filter, and writes a JPEG or PDF to the temporary
  directory.

This project models the parts of `ios/Classes/DocScanPlugin.swift` that are
pure decisions. Every call into UIKit, Vision, Core Image or the file system
becomes a field of an `Environment` record that says how that call turns out.

- `wrappers.dfy` (`Wrappers`): `Option` for Swift optionals, `Result`, and
  dictionary lookup.
- `geometry.dfy` (`Geometry`): `CGPoint` and `CGSize` over reals, and
  `scaledForCoreImage`.
- `quads.dfy` (`Quads`): the `Quadrilateral` value. This covers its dictionary
  parser and serialiser, the default quadrilateral, the copy from a Vision
  observation, and scaling to pixels.
- `filters.dfy` (`Filters`): the filter table of `applyFilter`, as the list of
  Core Image stages each filter name selects and their parameters. It also has
  the adaptive-threshold kernel, with the ITU-R BT.709 luma weights
  (Recommendation BT.709, item 3.2) and the constant 0.06. The kernel is
  modelled per pixel and over a whole image.
- `plugin.dfy` (`Plugin`): argument validation and dispatch in `handle`,
  `getImage`, `detectEdges`, `processImage` and `applyCropAndSave`. `Respond`
  composes them into the single reply a request gets.

Coordinates follow the code. Normalised coordinates have Y pointing up, as
Vision reports them, so the default quadrilateral's top-left corner is (0,1).
Core Image pixel coordinates have their origin at the bottom-left.

Behaviour of the code that the model keeps:

- The filter names with an effect are `automatic`, `grayscale`,
  `blackAndWhite`, `shadows` and `custom`. Every other name, `none` and
  `color` included, leaves the image unchanged.
- `custom` runs one `CIColorControls` stage. It sets brightness to b/200 only
  when a brightness b is given, and contrast only when a contrast is given. It
  then adds a white `CIColorMonochrome` stage of intensity t only when a
  threshold t is given.
- `blackAndWhite` is one `CIColorControls` stage with saturation 0 and
  contrast 1.5.
- `shadows` is one white `CIColorMonochrome` stage of intensity 0.8.
- `automatic` is `CIPhotoEffectNoir`, then the adaptive-threshold kernel with
  the constant 0.06. The kernel takes two inputs: the grey image and a
  `CIGaussianBlur` of radius 35 of that grey image. The model folds the blur
  and the kernel into one `AdaptiveThreshold(35, 0.06)` stage, because the
  blurred image only feeds the kernel and never becomes the output.
- The default quadrilateral is (0,1), (1,1), (0,0), (1,0) for top-left,
  top-right, bottom-left and bottom-right.
- Detection is one Vision rectangle request, and rectification is one
  `CIPerspectiveCorrection` call. Any four corners are accepted, including
  collinear or coincident ones.
- The error codes sent are `INVALID_ARGS`, `FILE_NOT_FOUND`,
  `PROCESSING_ERROR`, `VISION_ERROR`, `SAVE_ERROR`, `NO_VIEW_CONTROLLER` and
  `UNAVAILABLE`.
- Any format other than `"pdf"` writes JPEG data at quality 0.8. The file
  name still ends in `"." + format` verbatim, so `"png"` gives JPEG bytes in a
  `.png` file.
- `getImage` with a source other than `"camera"` or `"gallery"` never
  answers. The model says so with the `NoResponse` reply.

## Model

| member | source | states |
|---|---|---|
| Wrappers.Lookup | ios/Classes/DocScanPlugin.swift:407-410 | a dictionary subscript yields a value exactly when the key is present, and then the stored value |
| Geometry.ScaleAxis | ios/Classes/DocScanPlugin.swift:440 | one coordinate scaled by a unit dimension is kept, and a coordinate in [0,1] scaled by d >= 0 lies in [0,d] |
| Geometry.ScaledForCoreImage | ios/Classes/DocScanPlugin.swift:439-441 | scaling by the size (1,1) returns the point unchanged, and a point in the unit square scales into [0,w] x [0,h] of a non-negative extent |
| Geometry.ScaleIsInvertible | ios/Classes/DocScanPlugin.swift:439-441 | over exact reals, for a non-zero width and height, two points that scale to the same pixel point were equal |
| Quads.FromDictionary | ios/Classes/DocScanPlugin.swift:406-417 | parsing succeeds exactly when all eight coordinate keys are present, and each corner is then read from its own X and Y keys |
| Quads.ToDictionary | ios/Classes/DocScanPlugin.swift:428-435 | the serialised form has exactly the eight coordinate keys, and each key holds the matching corner's matching axis |
| Quads.QuadKeysCount | ios/Classes/DocScanPlugin.swift:407-410 | the eight coordinate key names are pairwise distinct |
| Quads.ToDictionaryHasEightEntries | ios/Classes/DocScanPlugin.swift:428-435 | every serialised quadrilateral has exactly eight entries |
| Quads.RoundTrip | ios/Classes/DocScanPlugin.swift:406-435 | parsing the serialised form of any quadrilateral gives back that quadrilateral, all eight coordinates exactly equal |
| Quads.ToDictionaryInjective | ios/Classes/DocScanPlugin.swift:428-435 | two quadrilaterals with the same serialised form are equal |
| Quads.ParseThenSerialize | ios/Classes/DocScanPlugin.swift:406-417 | a dictionary that parses serialises back to itself restricted to the eight coordinate keys, so extra keys are dropped |
| Quads.DefaultQuad | ios/Classes/DocScanPlugin.swift:419-426 | the default quadrilateral has Y up: its top corners lie above its bottom corners, its right corners right of its left ones, and every coordinate is 0 or 1 |
| Quads.ScaledDefaultQuad | ios/Classes/DocScanPlugin.swift:419-441 | scaling the default quadrilateral to a w x h extent gives (0,h), (w,h), (0,0), (w,0) |
| Quads.ScaledQuad | ios/Classes/DocScanPlugin.swift:166-169 | every corner is scaled to pixels and keeps its role, and scaling by (1,1) leaves the quadrilateral unchanged |
| Quads.FromObservation | ios/Classes/DocScanPlugin.swift:399-404 | each observation corner is copied to the quadrilateral corner with the same role |
| Filters.FilterStages | ios/Classes/DocScanPlugin.swift:187-300 | the stage list is empty, so the filter is the identity, exactly when the name is none of automatic, grayscale, blackAndWhite, shadows, custom |
| Filters.ParametersOnlyAffectCustom | ios/Classes/DocScanPlugin.swift:187-300 | brightness, contrast and threshold change the stages of no filter but custom |
| Filters.CustomStages | ios/Classes/DocScanPlugin.swift:277-295 | custom sets brightness b/200 exactly when b is given, contrast exactly when given, and adds a white monochrome stage of intensity t exactly when a threshold t is given |
| Filters.BlackAndWhiteStages | ios/Classes/DocScanPlugin.swift:263-269 | blackAndWhite is one colour-controls stage with saturation 0 and contrast 1.5, whatever the optional parameters |
| Filters.AutomaticStages | ios/Classes/DocScanPlugin.swift:191-256 | automatic is grayscale, then one adaptive-threshold stage comparing the grey image with its own blur of radius 35, with c = 0.06 |
| Filters.GrayscaleStages | ios/Classes/DocScanPlugin.swift:258-262 | grayscale is the photo-effect noir stage alone, whatever the optional parameters |
| Filters.ShadowsStages | ios/Classes/DocScanPlugin.swift:270-276 | shadows is one white monochrome stage of intensity 0.8, whatever the optional parameters |
| Filters.UnknownFilterIsIdentity | ios/Classes/DocScanPlugin.swift:296-297 | an unrecognised filter name, none and color included, applies no stage |
| Filters.Luma | ios/Classes/DocScanPlugin.swift:221-222 | the BT.709 weights sum to one, so a grey pixel's luma is its level, and components in [0,1] give a luma in [0,1] |
| Filters.AdaptivePixel | ios/Classes/DocScanPlugin.swift:215-231 | the kernel outputs opaque white exactly when the pixel's BT.709 luma exceeds the blurred pixel's luma minus c, and opaque black otherwise |
| Filters.FlatRegionIsWhite | ios/Classes/DocScanPlugin.swift:227-241 | with c = 0.06, a pixel equal to its local mean always comes out white |
| Filters.AdaptivePixelMonotone | ios/Classes/DocScanPlugin.swift:221-231 | brightening a pixel that comes out white keeps it white |
| Filters.ApplyAdaptiveKernel | ios/Classes/DocScanPlugin.swift:243-256 | applied over the extent, each output pixel is the kernel at the same position of the image and of its blur, so the output holds only white and black |
| Plugin.StringArg | ios/Classes/DocScanPlugin.swift:22-23 | a string argument is read exactly when the key is present with a string value |
| Plugin.NumberArg | ios/Classes/DocScanPlugin.swift:47-49 | a number argument is read exactly when the key is present with a number value |
| Plugin.NumberMapArg | ios/Classes/DocScanPlugin.swift:41 | a quad argument is read exactly when the key is present with a dictionary of numbers |
| Plugin.CropArgs | ios/Classes/DocScanPlugin.swift:39-49 | a crop request exists exactly when imagePath, quad, format and filter are present with their types; each field is the argument of the same name, and each optional number is present exactly when sent as a number, with its value |
| Plugin.Dispatch | ios/Classes/DocScanPlugin.swift:17-56 | unknown methods are not implemented; each known method is either dispatched or rejected, and it is dispatched exactly when its required arguments are present with their types (a string source; a string imagePath; imagePath, quad, format and filter); the optional numbers are passed on with their values |
| Plugin.OptionalArgumentsNotRequired | ios/Classes/DocScanPlugin.swift:38-51 | dropping brightness, contrast and threshold never changes whether applyCropAndSave is accepted |
| Plugin.GetImage | ios/Classes/DocScanPlugin.swift:60-81 | NO_VIEW_CONTROLLER exactly when there is no root view controller; camera shows the scanner; gallery shows the picker when available and gives UNAVAILABLE exactly when not; any other source gets no reply |
| Plugin.GetImageThroughHandle | ios/Classes/DocScanPlugin.swift:20-28 | a getImage call with a string source is answered by getImage for that source, one without is INVALID_ARGS in every environment, and a reply only comes for camera, gallery or a failed precondition |
| Plugin.DetectEdges | ios/Classes/DocScanPlugin.swift:83-112 | a load failure gives FILE_NOT_FOUND, then a missing CGImage gives PROCESSING_ERROR, then a throwing Vision request gives VISION_ERROR; a quadrilateral comes back exactly when Vision completes, and it always parses |
| Plugin.DetectEdgesFallback | ios/Classes/DocScanPlugin.swift:96-103 | after Vision completes, the reply is the default quadrilateral exactly when there is no observation or the first one equals it; otherwise it is the first observation |
| Plugin.CorrectionFor | ios/Classes/DocScanPlugin.swift:162-171 | each perspective-correction key gets the quadrilateral corner with the same role, scaled to the image extent |
| Plugin.DefaultQuadCorrectsFullExtent | ios/Classes/DocScanPlugin.swift:162-171 | rectifying to the default quadrilateral uses the full extent corners |
| Plugin.ProcessImage | ios/Classes/DocScanPlugin.swift:158-185 | the image is rectified and filtered exactly when every Core Image step succeeds, and otherwise the original is kept |
| Plugin.EncodingFor | ios/Classes/DocScanPlugin.swift:133-138 | format "pdf" selects PDF, and every other string selects JPEG at quality 0.8 |
| Plugin.FinalPath | ios/Classes/DocScanPlugin.swift:128-130 | the path is the temporary directory, then the UUID, then "." and the format verbatim |
| Plugin.PrepareCrop | ios/Classes/DocScanPlugin.swift:114-131 | the image is loaded before the quadrilateral is checked; a job is scheduled exactly when both succeed, with the rendering, encoding and path chosen from the request |
| Plugin.ApplyCropAndSave | ios/Classes/DocScanPlugin.swift:114-154 | FILE_NOT_FOUND comes before INVALID_ARGS for a bad quadrilateral, then SAVE_ERROR when saving fails; a path comes back exactly when the job was prepared and saved, and it is the job's path tempDir + uuid + "." + format |
| Plugin.Respond | ios/Classes/DocScanPlugin.swift:17-154 | the reply is not-implemented exactly for unknown methods and INVALID_ARGS for missing required arguments; getImage can only fail with INVALID_ARGS, NO_VIEW_CONTROLLER or UNAVAILABLE, detectEdges with INVALID_ARGS, FILE_NOT_FOUND, PROCESSING_ERROR or VISION_ERROR, and applyCropAndSave with INVALID_ARGS, FILE_NOT_FOUND or SAVE_ERROR; a quadrilateral reply comes only from detectEdges and always parses |
| Plugin.DetectedQuadIsAccepted | ios/Classes/DocScanPlugin.swift:83-154 | a quadrilateral returned by detectEdges, sent back to applyCropAndSave for the same image, gives the saved path or SAVE_ERROR, never FILE_NOT_FOUND or INVALID_ARGS |
| Plugin.CustomArgumentsReachFilter | ios/Classes/DocScanPlugin.swift:47-51 | brightness b, contrast c and threshold t sent with a custom crop become the stages colour controls (b/200, c) and monochrome t |
| Plugin.Code | ios/Classes/DocScanPlugin.swift:24-150 | every error code is spelled as a non-empty run of capital letters and underscores |
| Plugin.CodesAreDistinct | ios/Classes/DocScanPlugin.swift:24-150 | the error codes the plugin sends have pairwise different spellings |

## Left out

- Vision rectangle detection, including the minimum confidence of 0.6, is a foreign call. An observation is four points, and the request's outcome is an input.
- Core Image internals are foreign GPU code. This covers `CIPerspectiveCorrection`, `CIPhotoEffectNoir`, `CIColorControls`, `CIGaussianBlur`, `CIColorMonochrome` and kernel compilation. Only the stages chosen and their parameters are modelled.
- Filters.FilterStages: assumes every named Core Image filter and the custom kernel can be created and produce an output. When one cannot, or its output image is nil, the source skips that stage, or for `automatic` returns the unfiltered image.
- Plugin.DetectEdges: assumes a throwing Vision request does not also call the completion handler. Vision's behaviour there is foreign.
- JPEG and PDF encoding, the PDF drawing, file writes, `NSTemporaryDirectory` and `UUID` are I/O. The temporary directory and the UUID are inputs, and a save is one success flag.
- Image loading is I/O. `Environment.images` lists the paths that load, with their extents. `forceUprightOrientation` is not modelled.
- The camera and picker delegate callbacks and `saveTempImage` are UI acquisition glue. They answer after the view controller is dismissed.
- `DispatchQueue` hops and the shared `flutterResult` field are concurrency plumbing. Each request is modelled as producing its one reply.
- The human-readable error messages are not modelled; only the codes are.
- Geometry.ScaleIsInvertible: holds over exact reals only. The source multiplies Doubles, and the rounded product can map two distinct normalised coordinates to the same pixel coordinate (0.9 and the next Double above it, both times 3.0).
- Doubles are exact reals, so the rounding of `b / 200.0` and of the luma dot product is not modelled. The integer-to-double bridging of Flutter numbers is folded into the `Num` argument value.
- The Android plugin, android/src/main/kotlin/fr/ideeri/doc_scan/DocScanPlugin.kt, is not part of this model. It only launches ML Kit's scanner activity.

=== FILE: filters.dfy ===
/** The filter selection table of `applyFilter` and the per-pixel rule of its
    adaptive-threshold kernel. Core Image filters are not modelled; a filter
    stage records only which filter is applied and with which parameters. */
module Filters {
  import opened Wrappers

  /** A Core Image colour; only white is ever chosen. */
  datatype Color = White

  /** One Core Image filter application, with the parameters the plugin sets.
      Each stage takes the output of the stage before it. In `ColorControls` a
      `None` parameter is one the plugin leaves at the filter's own default.
      `AdaptiveThreshold` is the `CIGaussianBlur` and custom kernel pair: it
      blurs its incoming image with the given radius and feeds the kernel the
      incoming image and that blur as two inputs (`ApplyAdaptiveKernel`), so
      the blur itself never reaches the output. */
  datatype Stage =
    | PhotoEffectNoir
    | AdaptiveThreshold(blurRadius: real, cValue: real)
    | ColorControls(saturation: Option<real>, brightness: Option<real>, contrast: Option<real>)
    | ColorMonochrome(color: Color, intensity: real)

  /** The names `applyFilter` gives a non-empty stage list; every other name
      (`"none"`, `"color"`, anything else) falls to its `default` branch. */
  const KnownFilters: set<string> := {"automatic", "grayscale", "blackAndWhite", "shadows", "custom"}

  /** Radius of the local-mean blur of the `"automatic"` filter. */
  const BlurRadius: real := 35.0

  /** The constant subtracted from the local mean luma in the kernel. */
  const CValue: real := 0.06

  /** Saturation and contrast of the `"blackAndWhite"` filter. */
  const BlackAndWhiteSaturation: real := 0.0
  const BlackAndWhiteContrast: real := 1.5

  /** Monochrome intensity of the `"shadows"` filter. */
  const ShadowsIntensity: real := 0.8

  /** `"custom"` passes brightness to Core Image divided by this. */
  const BrightnessDivisor: real := 200.0

  /** The stages `applyFilter` runs for a filter name and the optional
      brightness, contrast and threshold, as a chain: each stage filters the
      previous stage's output. */
  function FilterStages(name: string, brightness: Option<real>, contrast: Option<real>, threshold: Option<real>): (r: seq<Stage>)
    ensures |r| == 0 <==> name !in KnownFilters
  {
    match name
    case "automatic" => [PhotoEffectNoir, AdaptiveThreshold(BlurRadius, CValue)]
    case "grayscale" => [PhotoEffectNoir]
    case "blackAndWhite" =>
      [ColorControls(Some(BlackAndWhiteSaturation), None, Some(BlackAndWhiteContrast))]
    case "shadows" => [ColorMonochrome(White, ShadowsIntensity)]
    case "custom" =>
      var controls := ColorControls(
        None,
        if brightness.Some? then Some(brightness.value / BrightnessDivisor) else None,
        contrast);
      if threshold.Some? then [controls, ColorMonochrome(White, threshold.value)]
      else [controls]
    case _ => []
  }

  /** `"custom"`: one colour-controls stage that sets brightness to b/200
      exactly when b is given and contrast exactly when it is given, followed
      by a white monochrome stage of intensity t exactly when a threshold t is
      given. */
  lemma CustomStages(b: Option<real>, c: Option<real>, t: Option<real>)
    ensures var r := FilterStages("custom", b, c, t);
      && |r| == (if t.Some? then 2 else 1)
      && r[0].ColorControls?
      && r[0].saturation.None?
      && (r[0].brightness.Some? <==> b.Some?)
      && (b.Some? ==> r[0].brightness.value * 200.0 == b.value)
      && r[0].contrast == c
      && (t.Some? ==> r[1] == ColorMonochrome(White, t.value))
  {
  }

  /** `"blackAndWhite"`: saturation 0 and contrast 1.5, brightness untouched. */
  lemma BlackAndWhiteStages(b: Option<real>, c: Option<real>, t: Option<real>)
    ensures FilterStages("blackAndWhite", b, c, t) == [ColorControls(Some(0.0), None, Some(1.5))]
  {
  }

  /** `"automatic"`: grayscale, then the adaptive threshold of the grayscale
      image against its own blur of radius 35, with c = 0.06. */
  lemma AutomaticStages(b: Option<real>, c: Option<real>, t: Option<real>)
    ensures FilterStages("automatic", b, c, t) == [PhotoEffectNoir, AdaptiveThreshold(35.0, 0.06)]
  {
  }

  /** `"grayscale"`: the photo-effect noir stage alone. */
  lemma GrayscaleStages(b: Option<real>, c: Option<real>, t: Option<real>)
    ensures FilterStages("grayscale", b, c, t) == [PhotoEffectNoir]
  {
  }

  /** `"shadows"`: a white monochrome stage of intensity 0.8. */
  lemma ShadowsStages(b: Option<real>, c: Option<real>, t: Option<real>)
    ensures FilterStages("shadows", b, c, t) == [ColorMonochrome(White, 0.8)]
  {
  }

  /** Unrecognised names, `"none"` and `"color"` among them, are the identity. */
  lemma UnknownFilterIsIdentity(name: string, b: Option<real>, c: Option<real>, t: Option<real>)
    requires name !in KnownFilters
    ensures FilterStages(name, b, c, t) == []
  {
  }

  /** Brightness, contrast and threshold only matter to `"custom"`: every
      other filter ignores them. */
  lemma ParametersOnlyAffectCustom(name: string, b: Option<real>, c: Option<real>, t: Option<real>)
    requires name != "custom"
    ensures FilterStages(name, b, c, t) == FilterStages(name, None, None, None)
  {
  }

  /** A pixel of a Core Image working buffer: RGBA components in [0,1]. */
  datatype Pixel = Pixel(r: real, g: real, b: real, a: real)

  const WhitePixel: Pixel := Pixel(1.0, 1.0, 1.0, 1.0)
  const BlackPixel: Pixel := Pixel(0.0, 0.0, 0.0, 1.0)

  // Luma weights of ITU-R BT.709, item 3.2.
  const LumaRed: real := 0.2126
  const LumaGreen: real := 0.7152
  const LumaBlue: real := 0.0722

  /** The kernel's `dot(pixel.rgb, vec3(0.2126, 0.7152, 0.0722))`. The
      weights sum to one, so a grey pixel's luma is its level, and components
      in [0,1] give a luma in [0,1]. */
  function Luma(p: Pixel): (l: real)
    ensures p.r == p.g == p.b ==> l == p.r
    ensures 0.0 <= p.r <= 1.0 && 0.0 <= p.g <= 1.0 && 0.0 <= p.b <= 1.0 ==> 0.0 <= l <= 1.0
  {
    LumaRed * p.r + LumaGreen * p.g + LumaBlue * p.b
  }

  /** The adaptive-threshold kernel at one pixel: white when the pixel's luma
      exceeds the blurred pixel's luma minus `c`, black otherwise; alpha is 1
      either way. */
  function AdaptivePixel(pixel: Pixel, blurred: Pixel, c: real): (out: Pixel)
    ensures out == WhitePixel || out == BlackPixel
    ensures out.a == 1.0
    ensures out == WhitePixel <==> Luma(pixel) > Luma(blurred) - c
  {
    if Luma(pixel) > Luma(blurred) - c then WhitePixel else BlackPixel
  }

  /** With the plugin's positive constant, a pixel equal to its local mean
      (a flat background) always comes out white. */
  lemma FlatRegionIsWhite(p: Pixel)
    ensures AdaptivePixel(p, p, CValue) == WhitePixel
  {
  }

  /** Brightening a pixel that is already white keeps it white. */
  lemma AdaptivePixelMonotone(p: Pixel, q: Pixel, blurred: Pixel, c: real)
    requires p.r <= q.r && p.g <= q.g && p.b <= q.b
    requires AdaptivePixel(p, blurred, c) == WhitePixel
    ensures AdaptivePixel(q, blurred, c) == WhitePixel
  {
    assert Luma(p) <= Luma(q);
  }

  /** The kernel applied over the whole extent, as the `AdaptiveThreshold`
      stage does: every output pixel is the kernel evaluated at the same
      position of the incoming grayscale image and of its blur (the
      region-of-interest callback returns its rectangle unchanged). */
  method ApplyAdaptiveKernel(image: seq<Pixel>, blurred: seq<Pixel>, c: real) returns (out: seq<Pixel>)
    requires |image| == |blurred|
    ensures |out| == |image|
    ensures forall i :: 0 <= i < |out| ==> out[i] == AdaptivePixel(image[i], blurred[i], c)
    ensures forall i :: 0 <= i < |out| ==> out[i] == WhitePixel || out[i] == BlackPixel
  {
    out := [];
    var i := 0;
    while i < |image|
      invariant 0 <= i <= |image|
      invariant |out| == i
      invariant forall j :: 0 <= j < i ==> out[j] == AdaptivePixel(image[j], blurred[j], c)
    {
      out := out + [AdaptivePixel(image[i], blurred[i], c)];
      i := i + 1;
    }
  }
}

=== FILE: geometry.dfy ===
/** Points and sizes in the two coordinate spaces the plugin uses:
    normalised space (each axis in [0,1], Y pointing up, as Vision reports it)
    and Core Image pixel space (origin bottom-left, units = pixels). */
module Geometry {

  /** `CGPoint`; doubles are modelled as exact reals. */
  datatype Point = Point(x: real, y: real)

  /** `CGSize` of an image extent. */
  datatype Size = Size(width: real, height: real)

  /** A point lies in the unit square of normalised coordinates. */
  predicate Normalized(p: Point) {
    0.0 <= p.x <= 1.0 && 0.0 <= p.y <= 1.0
  }

  /** A point lies inside the pixel rectangle [0,width] x [0,height]. */
  predicate WithinExtent(p: Point, s: Size) {
    0.0 <= p.x <= s.width && 0.0 <= p.y <= s.height
  }

  /** One coordinate scaled by one image dimension. A unit dimension keeps
      the coordinate, and a coordinate in [0,1] stays within [0,d]. */
  function ScaleAxis(v: real, d: real): (r: real)
    ensures d == 1.0 ==> r == v
    ensures 0.0 <= v <= 1.0 && d >= 0.0 ==> 0.0 <= r <= d
  {
    var r := v * d;
    assert 0.0 <= v <= 1.0 && d >= 0.0 ==> 0.0 <= r <= d by {
      if 0.0 <= v <= 1.0 && d >= 0.0 {
        ProductOfUnitBounded(v, d, r);
      }
    }
    r
  }

  /** `CGPoint.scaledForCoreImage(size:)`: maps a normalised point to pixels by
      scaling each axis by the matching image dimension. Scaling by the unit
      size changes nothing, and a normalised point lands inside the extent. */
  function ScaledForCoreImage(p: Point, s: Size): (r: Point)
    ensures s == Size(1.0, 1.0) ==> r == p
    ensures Normalized(p) && s.width >= 0.0 && s.height >= 0.0 ==> WithinExtent(r, s)
  {
    Point(ScaleAxis(p.x, s.width), ScaleAxis(p.y, s.height))
  }

  /** Over exact reals, scaling one axis by a non-zero dimension is invertible. */
  lemma ScaleAxisIsInvertible(u: real, v: real, d: real)
    requires d != 0.0
    requires ScaleAxis(u, d) == ScaleAxis(v, d)
    ensures u == v
  {
    MulCancel(u, v, d, ScaleAxis(u, d), ScaleAxis(v, d));
  }

  /** Over exact reals, scaling by a non-degenerate extent is invertible,
      so distinct normalised points stay distinct in pixel space. The
      rounded Double product of the source does not promise this. */
  lemma ScaleIsInvertible(p: Point, q: Point, s: Size)
    requires s.width != 0.0 && s.height != 0.0
    requires ScaledForCoreImage(p, s) == ScaledForCoreImage(q, s)
    ensures p == q
  {
    ScaleAxisIsInvertible(p.x, q.x, s.width);
    ScaleAxisIsInvertible(p.y, q.y, s.height);
  }

  // Real-arithmetic helpers. Each names its products as parameters so that
  // the solver meets as few nonlinear terms as possible.

  lemma MulNonNegative(a: real, b: real)
    requires a >= 0.0 && b >= 0.0
    ensures a * b >= 0.0
  {
  }

  lemma MulPositive(a: real, b: real)
    requires a > 0.0 && b > 0.0
    ensures a * b > 0.0
  {
  }

  /** 0 <= v <= 1 and d >= 0 put the product p = v*d in [0,d]. */
  lemma ProductOfUnitBounded(v: real, d: real, p: real)
    requires 0.0 <= v <= 1.0 && d >= 0.0 && p == v * d
    ensures 0.0 <= p <= d
  {
    MulNonNegative(v, d);
    MulNonNegative(1.0 - v, d);
    assert (1.0 - v) * d == d - p;
  }

  /** Equal products with the same non-zero factor have equal cofactors. */
  lemma MulCancel(u: real, v: real, d: real, pu: real, pv: real)
    requires d != 0.0 && pu == u * d && pv == v * d && pu == pv
    ensures u == v
  {
    var e := u - v;
    assert e * d == pu - pv;
    if e > 0.0 && d > 0.0 {
      MulPositive(e, d);
    } else if e > 0.0 {
      MulPositive(e, -d);
    } else if e < 0.0 && d > 0.0 {
      MulPositive(-e, d);
    } else if e < 0.0 {
      MulPositive(-e, -d);
    }
  }
}

=== FILE: plugin.dfy ===
/** The request handling of `DocScanPlugin`, with every call into UIKit,
    Vision, Core Image and the file system replaced by a field of an
    `Environment` that says how that call turns out. Each request yields the
    one `Response` the plugin sends back over the method channel. */
module Plugin {
  import opened Wrappers
  import opened Geometry
  import opened Quads
  import opened Filters

  // ---------------------------------------------------------------------
  // Arguments and responses
  // ---------------------------------------------------------------------

  /** A value in the call's argument dictionary, as seen through the casts the
      plugin makes: `as? String`, `as? Double`, `as? [String: Double]`. */
  datatype ArgValue =
    | Str(s: string)
    | Num(x: real)
    | NumMap(entries: map<string, real>)
    | OtherValue

  /** `call.arguments as? [String: Any]`: `None` when the arguments are not a
      dictionary. */
  type Arguments = Option<map<string, ArgValue>>

  /** The error codes of the `FlutterError`s the plugin reports. */
  datatype ErrorCode =
    | InvalidArgs
    | FileNotFound
    | ProcessingError
    | VisionError
    | SaveError
    | NoViewController
    | Unavailable

  /** The wire spelling of each error code: a non-empty run of capital
      letters and underscores. */
  function Code(e: ErrorCode): (s: string)
    ensures |s| > 0
    ensures forall i :: 0 <= i < |s| ==> 'A' <= s[i] <= 'Z' || s[i] == '_'
  {
    match e
    case InvalidArgs => "INVALID_ARGS"
    case FileNotFound => "FILE_NOT_FOUND"
    case ProcessingError => "PROCESSING_ERROR"
    case VisionError => "VISION_ERROR"
    case SaveError => "SAVE_ERROR"
    case NoViewController => "NO_VIEW_CONTROLLER"
    case Unavailable => "UNAVAILABLE"
  }

  /** What the plugin sends back for one request. `ScannerPresented` and
      `PickerPresented` mean a view controller was shown and its delegate will
      answer later; `NoResponse` means the result callback is never invoked. */
  datatype Response =
    | Error(code: ErrorCode)
    | MethodNotImplemented
    | QuadResult(quad: map<string, real>)
    | PathResult(path: string)
    | ScannerPresented
    | PickerPresented
    | NoResponse

  /** The validated arguments of `applyCropAndSave`. */
  datatype CropRequest = CropRequest(
    imagePath: string,
    quadValues: map<string, real>,
    format: string,
    filter: string,
    brightness: Option<real>,
    contrast: Option<real>,
    threshold: Option<real>)

  /** The outcome of argument validation in `handle`. */
  datatype Call =
    | GetImageCall(source: string)
    | DetectEdgesCall(imagePath: string)
    | CropCall(request: CropRequest)
    | Rejected
    | NotImplemented

  /** The method names `handle` recognises. */
  const HandledMethods: set<string> := {"getImage", "detectEdges", "applyCropAndSave"}

  /** The result of a Vision rectangle request: `perform` either throws or
      completes with the observations, best first. */
  datatype VisionRun = VisionThrew | VisionCompleted(observations: seq<Observation>)

  /** How every foreign call the plugin makes turns out. */
  datatype Environment = Environment(
    hasRootViewController: bool,   // a key window with a root view controller exists
    galleryAvailable: bool,        // iOS 14 or later
    images: map<string, Size>,     // paths `UIImage(contentsOfFile:)` loads, with the image extent
    cgImageAvailable: bool,        // the upright image has a `cgImage`
    vision: VisionRun,
    ciImageAvailable: bool,        // `CIImage(image:)` succeeds
    perspectiveAvailable: bool,    // the perspective correction has an output image
    renderAvailable: bool,         // `CIContext().createCGImage` succeeds
    tempDir: string,               // `NSTemporaryDirectory()`
    uuid: string,                  // `UUID().uuidString`
    saveSucceeds: bool)            // encoding and writing the final file succeed

  // ---------------------------------------------------------------------
  // Argument access
  // ---------------------------------------------------------------------

  predicate HasString(args: Arguments, key: string) {
    args.Some? && key in args.value && args.value[key].Str?
  }

  predicate HasNumber(args: Arguments, key: string) {
    args.Some? && key in args.value && args.value[key].Num?
  }

  predicate HasNumberMap(args: Arguments, key: string) {
    args.Some? && key in args.value && args.value[key].NumMap?
  }

  /** `args[key] as? String`. */
  function StringArg(args: Arguments, key: string): (r: Option<string>)
    ensures r.Some? <==> HasString(args, key)
    ensures r.Some? ==> args.value[key] == Str(r.value)
  {
    if HasString(args, key) then Some(args.value[key].s) else None
  }

  /** `args[key] as? Double`. */
  function NumberArg(args: Arguments, key: string): (r: Option<real>)
    ensures r.Some? <==> HasNumber(args, key)
    ensures r.Some? ==> args.value[key] == Num(r.value)
  {
    if HasNumber(args, key) then Some(args.value[key].x) else None
  }

  /** `args[key] as? [String: Double]`. */
  function NumberMapArg(args: Arguments, key: string): (r: Option<map<string, real>>)
    ensures r.Some? <==> HasNumberMap(args, key)
    ensures r.Some? ==> args.value[key] == NumMap(r.value)
  {
    if HasNumberMap(args, key) then Some(args.value[key].entries) else None
  }

  // ---------------------------------------------------------------------
  // handle(_:result:)
  // ---------------------------------------------------------------------

  /** The required arguments of `applyCropAndSave` are present with the
      right types. */
  predicate CropArgsValid(args: Arguments) {
    && HasString(args, "imagePath")
    && HasNumberMap(args, "quad")
    && HasString(args, "format")
    && HasString(args, "filter")
  }

  /** The `guard let` of `applyCropAndSave` and the three optional reads
      after it: a request exists exactly when the required arguments are
      valid, each field is the argument of the same name, and each optional
      number is present exactly when sent as a number. */
  function CropArgs(args: Arguments): (r: Option<CropRequest>)
    ensures r.Some? <==> CropArgsValid(args)
    ensures r.Some? ==>
      && args.value["imagePath"] == Str(r.value.imagePath)
      && args.value["quad"] == NumMap(r.value.quadValues)
      && args.value["format"] == Str(r.value.format)
      && args.value["filter"] == Str(r.value.filter)
      && (r.value.brightness.Some? <==> HasNumber(args, "brightness"))
      && (r.value.brightness.Some? ==> args.value["brightness"] == Num(r.value.brightness.value))
      && (r.value.contrast.Some? <==> HasNumber(args, "contrast"))
      && (r.value.contrast.Some? ==> args.value["contrast"] == Num(r.value.contrast.value))
      && (r.value.threshold.Some? <==> HasNumber(args, "threshold"))
      && (r.value.threshold.Some? ==> args.value["threshold"] == Num(r.value.threshold.value))
  {
    var imagePath :- StringArg(args, "imagePath");
    var quadValues :- NumberMapArg(args, "quad");
    var format :- StringArg(args, "format");
    var filter :- StringArg(args, "filter");
    Some(CropRequest(imagePath, quadValues, format, filter,
      NumberArg(args, "brightness"), NumberArg(args, "contrast"), NumberArg(args, "threshold")))
  }

  /** Validation and dispatch of `handle`: an unknown method is not
      implemented; a known one is rejected unless each required argument is
      present with its type, and optional numbers are passed on as present or
      absent. */
  function Dispatch(name: string, args: Arguments): (c: Call)
    ensures c.NotImplemented? <==> name !in HandledMethods
    ensures name == "getImage" ==>
      (c.GetImageCall? || c.Rejected?)
      && (c.GetImageCall? <==> HasString(args, "source"))
      && (c.GetImageCall? ==> args.value["source"] == Str(c.source))
    ensures name == "detectEdges" ==>
      (c.DetectEdgesCall? || c.Rejected?)
      && (c.DetectEdgesCall? <==> HasString(args, "imagePath"))
      && (c.DetectEdgesCall? ==> args.value["imagePath"] == Str(c.imagePath))
    ensures name == "applyCropAndSave" ==>
      (c.CropCall? || c.Rejected?)
      && (c.CropCall? <==> CropArgs(args).Some?)
      && (c.CropCall? ==> CropArgs(args) == Some(c.request))
    ensures c.Rejected? ==> name in HandledMethods
  {
    match name
    case "getImage" =>
      (match StringArg(args, "source")
       case Some(source) => GetImageCall(source)
       case None => Rejected)
    case "detectEdges" =>
      (match StringArg(args, "imagePath")
       case Some(path) => DetectEdgesCall(path)
       case None => Rejected)
    case "applyCropAndSave" =>
      (match CropArgs(args)
       case Some(request) => CropCall(request)
       case None => Rejected)
    case _ => NotImplemented
  }

  /** The optional numbers never decide whether `applyCropAndSave` is
      accepted: dropping them leaves the verdict unchanged. */
  lemma OptionalArgumentsNotRequired(m: map<string, ArgValue>)
    ensures Dispatch("applyCropAndSave", Some(m)).CropCall?
        <==> Dispatch("applyCropAndSave", Some(m - {"brightness", "contrast", "threshold"})).CropCall?
  {
    var m' := m - {"brightness", "contrast", "threshold"};
    assert HasString(Some(m), "imagePath") <==> HasString(Some(m'), "imagePath");
    assert HasNumberMap(Some(m), "quad") <==> HasNumberMap(Some(m'), "quad");
    assert HasString(Some(m), "format") <==> HasString(Some(m'), "format");
    assert HasString(Some(m), "filter") <==> HasString(Some(m'), "filter");
  }

  // ---------------------------------------------------------------------
  // getImage(from:)
  // ---------------------------------------------------------------------

  /** `getImage(from:)`: needs a root view controller; `"camera"` shows the
      document scanner, `"gallery"` the photo picker (iOS 14 and later only),
      and any other source is silently ignored. */
  function GetImage(source: string, env: Environment): (r: Response)
    ensures r == Error(NoViewController) <==> !env.hasRootViewController
    ensures r == Error(Unavailable) <==>
      env.hasRootViewController && source == "gallery" && !env.galleryAvailable
    ensures r == ScannerPresented <==> env.hasRootViewController && source == "camera"
    ensures r == PickerPresented <==> env.hasRootViewController && source == "gallery" && env.galleryAvailable
    ensures r == NoResponse <==> env.hasRootViewController && source != "camera" && source != "gallery"
  {
    if !env.hasRootViewController then Error(NoViewController)
    else if source == "camera" then ScannerPresented
    else if source == "gallery" then
      (if env.galleryAvailable then PickerPresented else Error(Unavailable))
    else NoResponse
  }

  // ---------------------------------------------------------------------
  // detectEdges(imagePath:)
  // ---------------------------------------------------------------------

  /** `detectEdges(imagePath:)`: a load failure, a missing `cgImage` and a
      throwing Vision request are errors, in that order; otherwise the reply
      is the first observation's quadrilateral, or the default one when there
      is no observation. */
  function DetectEdges(imagePath: string, env: Environment): (r: Response)
    ensures imagePath !in env.images ==> r == Error(FileNotFound)
    ensures imagePath in env.images && !env.cgImageAvailable ==> r == Error(ProcessingError)
    ensures imagePath in env.images && env.cgImageAvailable && env.vision.VisionThrew? ==> r == Error(VisionError)
    ensures r.QuadResult? <==> imagePath in env.images && env.cgImageAvailable && env.vision.VisionCompleted?
    ensures r.QuadResult? ==> FromDictionary(r.quad).Some?
  {
    if imagePath !in env.images then Error(FileNotFound)
    else if !env.cgImageAvailable then Error(ProcessingError)
    else match env.vision
      case VisionThrew => Error(VisionError)
      case VisionCompleted(observations) =>
        var quad :=
          if |observations| == 0 then DefaultQuad()
          else FromObservation(observations[0]);
        RoundTrip(quad);
        QuadResult(ToDictionary(quad))
  }

  /** Once the image loads and Vision completes, the reply is the default
      quadrilateral exactly when there is no observation or the first one
      coincides with the default quadrilateral; otherwise it is the first
      observation, corner for corner. */
  lemma DetectEdgesFallback(imagePath: string, env: Environment)
    requires imagePath in env.images && env.cgImageAvailable && env.vision.VisionCompleted?
    ensures var obs := env.vision.observations;
      && (DetectEdges(imagePath, env) == QuadResult(ToDictionary(DefaultQuad()))
          <==> |obs| == 0 || FromObservation(obs[0]) == DefaultQuad())
      && (|obs| > 0 ==> FromDictionary(DetectEdges(imagePath, env).quad) == Some(FromObservation(obs[0])))
  {
    var obs := env.vision.observations;
    if |obs| > 0 {
      var q := FromObservation(obs[0]);
      RoundTrip(q);
      if DetectEdges(imagePath, env) == QuadResult(ToDictionary(DefaultQuad())) {
        ToDictionaryInjective(q, DefaultQuad());
      }
    }
  }

  // ---------------------------------------------------------------------
  // processImage(for:with:filter:brightness:contrast:threshold:)
  // ---------------------------------------------------------------------

  /** The four pixel-space corners handed to `CIPerspectiveCorrection`, one
      per input key. */
  datatype PerspectiveCorrection = PerspectiveCorrection(
    inputTopLeft: Point, inputTopRight: Point, inputBottomLeft: Point, inputBottomRight: Point)

  /** Each corner of the quadrilateral, scaled to the image extent, goes to
      the key naming the same corner. */
  function CorrectionFor(q: Quadrilateral, size: Size): (p: PerspectiveCorrection)
    ensures p.inputTopLeft == ScaledForCoreImage(q.topLeft, size)
    ensures p.inputTopRight == ScaledForCoreImage(q.topRight, size)
    ensures p.inputBottomLeft == ScaledForCoreImage(q.bottomLeft, size)
    ensures p.inputBottomRight == ScaledForCoreImage(q.bottomRight, size)
  {
    var s := ScaledQuad(q, size);
    PerspectiveCorrection(s.topLeft, s.topRight, s.bottomLeft, s.bottomRight)
  }

  /** The image that gets saved: the original, when a Core Image step fails,
      or the perspective-corrected image put through the filter stages. */
  datatype Rendering =
    | Unprocessed
    | Processed(correction: PerspectiveCorrection, stages: seq<Stage>)

  /** `processImage`: every Core Image failure falls back to the original
      image; otherwise the image is rectified to the quadrilateral and then
      filtered. */
  function ProcessImage(size: Size, q: Quadrilateral, req: CropRequest, env: Environment): (r: Rendering)
    ensures r.Processed? <==> env.ciImageAvailable && env.perspectiveAvailable && env.renderAvailable
    ensures r.Processed? ==>
      && r.correction == CorrectionFor(q, size)
      && r.stages == FilterStages(req.filter, req.brightness, req.contrast, req.threshold)
  {
    if !env.ciImageAvailable || !env.perspectiveAvailable || !env.renderAvailable then Unprocessed
    else Processed(CorrectionFor(q, size),
      FilterStages(req.filter, req.brightness, req.contrast, req.threshold))
  }

  /** Rectifying to the default quadrilateral uses the whole extent: the
      corrected image spans (0,h), (w,h), (0,0), (w,0). */
  lemma DefaultQuadCorrectsFullExtent(size: Size)
    ensures CorrectionFor(DefaultQuad(), size) == PerspectiveCorrection(
      Point(0.0, size.height), Point(size.width, size.height),
      Point(0.0, 0.0), Point(size.width, 0.0))
  {
    ScaledDefaultQuad(size);
  }

  // ---------------------------------------------------------------------
  // applyCropAndSave(...)
  // ---------------------------------------------------------------------

  /** How the final image is encoded. */
  datatype Encoding = Pdf | Jpeg(quality: real)

  /** JPEG quality of the final image. */
  const JpegQuality: real := 0.8

  /** `"pdf"` selects PDF; every other format string selects JPEG. */
  function EncodingFor(format: string): (e: Encoding)
    ensures e.Pdf? <==> format == "pdf"
    ensures e.Jpeg? ==> e.quality == 0.8
  {
    if format == "pdf" then Pdf else Jpeg(JpegQuality)
  }

  predicate EndsWith(s: string, suffix: string) {
    |suffix| <= |s| && s[|s| - |suffix|..] == suffix
  }

  predicate StartsWith(s: string, prefix: string) {
    |prefix| <= |s| && s[..|prefix|] == prefix
  }

  /** `tempDir.appending("\(uuid).\(format)")`: the format is used verbatim
      as the extension. */
  function FinalPath(tempDir: string, uuid: string, format: string): (path: string)
    ensures |path| == |tempDir| + |uuid| + 1 + |format|
    ensures StartsWith(path, tempDir)
    ensures path[|tempDir|..|tempDir| + |uuid|] == uuid
    ensures EndsWith(path, "." + format)
  {
    var path := tempDir + uuid + "." + format;
    assert path[|path| - |"." + format|..] == "." + format;
    path
  }

  /** The work handed to the background queue once the checks pass. */
  datatype Job = Job(rendering: Rendering, encoding: Encoding, path: string)

  /** The synchronous part of `applyCropAndSave`: the image must load before
      the quadrilateral is checked. */
  function PrepareCrop(req: CropRequest, env: Environment): (r: Result<Job, ErrorCode>)
    ensures req.imagePath !in env.images ==> r == Failure(FileNotFound)
    ensures req.imagePath in env.images && FromDictionary(req.quadValues).None? ==> r == Failure(InvalidArgs)
    ensures r.Success? <==> req.imagePath in env.images && FromDictionary(req.quadValues).Some?
    ensures r.Success? ==>
      && r.value.rendering == ProcessImage(env.images[req.imagePath], FromDictionary(req.quadValues).value, req, env)
      && r.value.encoding == EncodingFor(req.format)
      && r.value.path == FinalPath(env.tempDir, env.uuid, req.format)
  {
    if req.imagePath !in env.images then Failure(FileNotFound)
    else
      match FromDictionary(req.quadValues)
      case None => Failure(InvalidArgs)
      case Some(q) =>
        Success(Job(
          ProcessImage(env.images[req.imagePath], q, req, env),
          EncodingFor(req.format),
          FinalPath(env.tempDir, env.uuid, req.format)))
  }

  /** `applyCropAndSave`: `FILE_NOT_FOUND` before `INVALID_ARGS` for a bad
      quadrilateral, then `SAVE_ERROR` when the file cannot be written;
      success answers with the path, which ends in `"." + format`. */
  function ApplyCropAndSave(req: CropRequest, env: Environment): (r: Response)
    ensures req.imagePath !in env.images ==> r == Error(FileNotFound)
    ensures req.imagePath in env.images && FromDictionary(req.quadValues).None? ==> r == Error(InvalidArgs)
    ensures r == Error(SaveError) <==>
      req.imagePath in env.images && FromDictionary(req.quadValues).Some? && !env.saveSucceeds
    ensures r.PathResult? <==>
      req.imagePath in env.images && FromDictionary(req.quadValues).Some? && env.saveSucceeds
    ensures r.PathResult? <==> PrepareCrop(req, env).Success? && env.saveSucceeds
    ensures r.PathResult? ==>
      && r.path == PrepareCrop(req, env).value.path
      && r.path == FinalPath(env.tempDir, env.uuid, req.format)
      && EndsWith(r.path, "." + req.format) && StartsWith(r.path, env.tempDir)
    ensures r.Error? || r.PathResult?
  {
    match PrepareCrop(req, env)
    case Failure(e) => Error(e)
    case Success(job) => if env.saveSucceeds then PathResult(job.path) else Error(SaveError)
  }

  // ---------------------------------------------------------------------
  // The whole request
  // ---------------------------------------------------------------------

  /** `handle` followed by the operation it dispatches to. */
  function Respond(name: string, args: Arguments, env: Environment): (r: Response)
    ensures r == MethodNotImplemented <==> name !in HandledMethods
    ensures name == "getImage" && !HasString(args, "source") ==> r == Error(InvalidArgs)
    ensures name == "detectEdges" && !HasString(args, "imagePath") ==> r == Error(InvalidArgs)
    ensures name == "applyCropAndSave" && !CropArgsValid(args) ==> r == Error(InvalidArgs)
    ensures r.Error? && name == "getImage" ==> r.code in {InvalidArgs, NoViewController, Unavailable}
    ensures r.Error? && name == "detectEdges" ==>
      r.code in {InvalidArgs, FileNotFound, ProcessingError, VisionError}
    ensures r.Error? && name == "applyCropAndSave" ==> r.code in {InvalidArgs, FileNotFound, SaveError}
    ensures r.QuadResult? ==> name == "detectEdges" && FromDictionary(r.quad).Some?
    ensures r.PathResult? ==> name == "applyCropAndSave"
  {
    match Dispatch(name, args)
    case NotImplemented => MethodNotImplemented
    case Rejected => Error(InvalidArgs)
    case GetImageCall(source) => GetImage(source, env)
    case DetectEdgesCall(imagePath) => DetectEdges(imagePath, env)
    case CropCall(request) => ApplyCropAndSave(request, env)
  }

  /** Feeding a quadrilateral that `detectEdges` returned back into
      `applyCropAndSave` for the same image never fails on the image or the
      quadrilateral: the answer is the saved path or `SAVE_ERROR`. */
  lemma DetectedQuadIsAccepted(path: string, format: string, filter: string, env: Environment)
    requires Respond("detectEdges", Some(map["imagePath" := Str(path)]), env).QuadResult?
    ensures var d := Respond("detectEdges", Some(map["imagePath" := Str(path)]), env).quad;
      var r := Respond("applyCropAndSave",
        Some(map["imagePath" := Str(path), "quad" := NumMap(d), "format" := Str(format), "filter" := Str(filter)]),
        env);
      r == (if env.saveSucceeds then PathResult(FinalPath(env.tempDir, env.uuid, format)) else Error(SaveError))
  {
    var args := Some(map["imagePath" := Str(path)]);
    assert Dispatch("detectEdges", args) == DetectEdgesCall(path);
    var d := Respond("detectEdges", args, env).quad;
    var cropArgs := Some(map["imagePath" := Str(path), "quad" := NumMap(d), "format" := Str(format), "filter" := Str(filter)]);
    var c := Dispatch("applyCropAndSave", cropArgs);
    assert CropArgsValid(cropArgs);
    assert c.CropCall? && c.request.imagePath == path && c.request.quadValues == d && c.request.format == format;
    assert path in env.images;
  }

  /** A `getImage` call with a string source is answered by `getImage(from:)`
      for that source; one without is answered `INVALID_ARGS` whatever the
      environment, so the view controller is never consulted. */
  lemma GetImageThroughHandle(args: Arguments, env: Environment, env': Environment)
    ensures HasString(args, "source") ==>
      Respond("getImage", args, env) == GetImage(args.value["source"].s, env)
    ensures !HasString(args, "source") ==>
      Respond("getImage", args, env) == Respond("getImage", args, env') == Error(InvalidArgs)
    ensures Respond("getImage", args, env) != NoResponse ==>
      !HasString(args, "source") || !env.hasRootViewController
      || args.value["source"].s in {"camera", "gallery"}
  {
  }

  /** The numbers sent with a `"custom"` crop reach the filter stages: a
      brightness b becomes b/200, a contrast c is passed unchanged, and a
      threshold t becomes the monochrome intensity. */
  lemma CustomArgumentsReachFilter(path: string, d: map<string, real>, format: string,
                                   b: real, c: real, t: real, env: Environment)
    requires path in env.images && FromDictionary(d).Some?
    requires env.ciImageAvailable && env.perspectiveAvailable && env.renderAvailable
    ensures var args := Some(map[
        "imagePath" := Str(path), "quad" := NumMap(d), "format" := Str(format), "filter" := Str("custom"),
        "brightness" := Num(b), "contrast" := Num(c), "threshold" := Num(t)]);
      var call := Dispatch("applyCropAndSave", args);
      && call.CropCall?
      && PrepareCrop(call.request, env).Success?
      && PrepareCrop(call.request, env).value.rendering.stages
         == [ColorControls(None, Some(b / 200.0), Some(c)), ColorMonochrome(White, t)]
  {
    var args := Some(map[
        "imagePath" := Str(path), "quad" := NumMap(d), "format" := Str(format), "filter" := Str("custom"),
        "brightness" := Num(b), "contrast" := Num(c), "threshold" := Num(t)]);
    assert CropArgsValid(args);
    var call := Dispatch("applyCropAndSave", args);
    assert call.request == CropRequest(path, d, format, "custom", Some(b), Some(c), Some(t));
  }

  /** Every error code has its own wire spelling. */
  lemma CodesAreDistinct(e1: ErrorCode, e2: ErrorCode)
    requires e1 != e2
    ensures Code(e1) != Code(e2)
  {
  }
}

=== FILE: quads.dfy ===
/** The `Quadrilateral` value exchanged with the Dart side, and its wire form:
    a `[String: Double]` dictionary with eight named coordinates. */
module Quads {
  import opened Wrappers
  import opened Geometry

  /** Four corners named by role. Coordinates are normalised with Y up. */
  datatype Quadrilateral = Quadrilateral(
    topLeft: Point, topRight: Point, bottomLeft: Point, bottomRight: Point)

  /** The corners a Vision rectangle observation reports. Vision itself is
      not modelled: an observation is just these four points. */
  datatype Observation = Observation(
    topLeft: Point, topRight: Point, bottomLeft: Point, bottomRight: Point)

  // The eight dictionary keys of the wire form.
  const TopLeftX: string := "topLeftX"
  const TopLeftY: string := "topLeftY"
  const TopRightX: string := "topRightX"
  const TopRightY: string := "topRightY"
  const BottomLeftX: string := "bottomLeftX"
  const BottomLeftY: string := "bottomLeftY"
  const BottomRightX: string := "bottomRightX"
  const BottomRightY: string := "bottomRightY"

  const QuadKeys: set<string> := {
    TopLeftX, TopLeftY, TopRightX, TopRightY,
    BottomLeftX, BottomLeftY, BottomRightX, BottomRightY }

  /** `Quadrilateral.init?(from:)`: reads the eight keys in order and fails
      (`nil`) at the first one that is missing; other keys are ignored. */
  function FromDictionary(d: map<string, real>): (r: Option<Quadrilateral>)
    ensures r.Some? <==> QuadKeys <= d.Keys
    ensures r.Some? ==>
      && r.value.topLeft == Point(d[TopLeftX], d[TopLeftY])
      && r.value.topRight == Point(d[TopRightX], d[TopRightY])
      && r.value.bottomLeft == Point(d[BottomLeftX], d[BottomLeftY])
      && r.value.bottomRight == Point(d[BottomRightX], d[BottomRightY])
  {
    var tlX :- Lookup(d, TopLeftX);
    var tlY :- Lookup(d, TopLeftY);
    var trX :- Lookup(d, TopRightX);
    var trY :- Lookup(d, TopRightY);
    var blX :- Lookup(d, BottomLeftX);
    var blY :- Lookup(d, BottomLeftY);
    var brX :- Lookup(d, BottomRightX);
    var brY :- Lookup(d, BottomRightY);
    Some(Quadrilateral(
      Point(tlX, tlY), Point(trX, trY), Point(blX, blY), Point(brX, brY)))
  }

  /** `Quadrilateral.toDictionary()`: the eight coordinates, each under the
      key naming its corner and axis. */
  function ToDictionary(q: Quadrilateral): (d: map<string, real>)
    ensures d.Keys == QuadKeys
    ensures d[TopLeftX] == q.topLeft.x && d[TopLeftY] == q.topLeft.y
    ensures d[TopRightX] == q.topRight.x && d[TopRightY] == q.topRight.y
    ensures d[BottomLeftX] == q.bottomLeft.x && d[BottomLeftY] == q.bottomLeft.y
    ensures d[BottomRightX] == q.bottomRight.x && d[BottomRightY] == q.bottomRight.y
  {
    map[
      TopLeftX := q.topLeft.x, TopLeftY := q.topLeft.y,
      TopRightX := q.topRight.x, TopRightY := q.topRight.y,
      BottomLeftX := q.bottomLeft.x, BottomLeftY := q.bottomLeft.y,
      BottomRightX := q.bottomRight.x, BottomRightY := q.bottomRight.y]
  }

  /** `Quadrilateral.defaultQuad()`: the whole frame in Y-up normalised
      coordinates. Its top corners lie above its bottom corners, its right
      corners right of its left ones, and every coordinate is 0 or 1. */
  function DefaultQuad(): (q: Quadrilateral)
    ensures q.topLeft.y == q.topRight.y > q.bottomLeft.y == q.bottomRight.y
    ensures q.topRight.x == q.bottomRight.x > q.topLeft.x == q.bottomLeft.x
    ensures forall p <- Corners(q) :: Normalized(p)
    ensures forall p <- Corners(q) :: p.x in {0.0, 1.0} && p.y in {0.0, 1.0}
  {
    Quadrilateral(
      topLeft := Point(0.0, 1.0),
      topRight := Point(1.0, 1.0),
      bottomLeft := Point(0.0, 0.0),
      bottomRight := Point(1.0, 0.0))
  }

  /** `Quadrilateral.init(observation:)`: copies each corner to the same role. */
  function FromObservation(o: Observation): (q: Quadrilateral)
    ensures q.topLeft == o.topLeft && q.topRight == o.topRight
    ensures q.bottomLeft == o.bottomLeft && q.bottomRight == o.bottomRight
  {
    Quadrilateral(o.topLeft, o.topRight, o.bottomLeft, o.bottomRight)
  }

  /** All four corners of `q`. */
  function Corners(q: Quadrilateral): seq<Point>
  {
    [q.topLeft, q.topRight, q.bottomLeft, q.bottomRight]
  }

  /** `q` with every corner mapped through `scaledForCoreImage`, each corner
      keeping its role. */
  function ScaledQuad(q: Quadrilateral, s: Size): (r: Quadrilateral)
    ensures forall i :: 0 <= i < 4 ==> Corners(r)[i] == ScaledForCoreImage(Corners(q)[i], s)
    ensures s == Size(1.0, 1.0) ==> r == q
  {
    Quadrilateral(
      ScaledForCoreImage(q.topLeft, s), ScaledForCoreImage(q.topRight, s),
      ScaledForCoreImage(q.bottomLeft, s), ScaledForCoreImage(q.bottomRight, s))
  }

  /** The eight keys are pairwise distinct, so the wire form has exactly eight
      entries. */
  lemma QuadKeysCount()
    ensures |QuadKeys| == 8
  {
    var s0: set<string> := {};
    var s1 := s0 + {TopLeftX};
    var s2 := s1 + {TopLeftY};
    var s3 := s2 + {TopRightX};
    var s4 := s3 + {TopRightY};
    var s5 := s4 + {BottomLeftX};
    var s6 := s5 + {BottomLeftY};
    var s7 := s6 + {BottomRightX};
    var s8 := s7 + {BottomRightY};
    assert TopLeftY[7] != TopLeftX[7];
    assert TopRightX !in s2 by { assert |TopRightX| != |TopLeftX| && |TopRightX| != |TopLeftY|; }
    assert TopRightY !in s3 by { assert TopRightY[8] != TopRightX[8]; }
    assert BottomLeftX !in s4 by { assert |BottomLeftX| == 11; }
    assert BottomLeftY !in s5 by { assert BottomLeftY[10] != BottomLeftX[10]; }
    assert BottomRightX !in s6 by { assert |BottomRightX| == 12; }
    assert BottomRightY !in s7 by { assert BottomRightY[11] != BottomRightX[11]; }
    assert s8 == QuadKeys;
  }

  /** Serialising then parsing gives back exactly the same quadrilateral. */
  lemma RoundTrip(q: Quadrilateral)
    ensures FromDictionary(ToDictionary(q)) == Some(q)
  {
  }

  /** The wire form has exactly eight entries. */
  lemma ToDictionaryHasEightEntries(q: Quadrilateral)
    ensures |ToDictionary(q)| == 8
  {
    QuadKeysCount();
    assert ToDictionary(q).Keys == QuadKeys;
  }

  /** Distinct quadrilaterals never share a wire form. */
  lemma ToDictionaryInjective(q1: Quadrilateral, q2: Quadrilateral)
    requires ToDictionary(q1) == ToDictionary(q2)
    ensures q1 == q2
  {
    RoundTrip(q1);
    RoundTrip(q2);
  }

  /** Parsing then serialising keeps the eight coordinate keys with their
      values and drops every other key. */
  lemma ParseThenSerialize(d: map<string, real>)
    requires FromDictionary(d).Some?
    ensures ToDictionary(FromDictionary(d).value) == map k | k in d && k in QuadKeys :: d[k]
  {
    var q := FromDictionary(d).value;
    var lhs := ToDictionary(q);
    var rhs := map k | k in d && k in QuadKeys :: d[k];
    assert lhs.Keys == rhs.Keys;
    forall k | k in lhs
      ensures lhs[k] == rhs[k]
    {
    }
  }

  /** Scaling the default quadrilateral to a w x h extent gives the pixel
      corners (0,h), (w,h), (0,0), (w,0). */
  lemma ScaledDefaultQuad(s: Size)
    ensures ScaledQuad(DefaultQuad(), s) == Quadrilateral(
      Point(0.0, s.height), Point(s.width, s.height),
      Point(0.0, 0.0), Point(s.width, 0.0))
  {
  }
}

=== FILE: wrappers.dfy ===
/** Failure-compatible wrappers used throughout the model: Swift's optionals
    (`T?`) become `Option<T>`. */
module Wrappers {

  /** Swift's `Optional`: `None` plays the role of `nil`. */
  datatype Option<+T> = None | Some(value: T) {

    predicate IsFailure() {
      None?
    }

    function PropagateFailure<U>(): Option<U>
      requires None?
    {
      None
    }

    function Extract(): T
      requires Some?
    {
      value
    }
  }

  /** A value or the error that stopped the computation. */
  datatype Result<+R, +E> = Success(value: R) | Failure(error: E) {

    predicate IsFailure() {
      Failure?
    }

    function PropagateFailure<U>(): Result<U, E>
      requires Failure?
    {
      Failure(error)
    }

    function Extract(): R
      requires Success?
    {
      value
    }
  }

  /** Looks a key up in a dictionary, as Swift's `dictionary[key]` does. */
  function Lookup<K, V>(m: map<K, V>, k: K): (r: Option<V>)
    ensures r.Some? <==> k in m
    ensures r.Some? ==> r.value == m[k]
  {
    if k in m then Some(m[k]) else None
  }
}
